=== FILE: README.md ===
# Announcement scheduler — a Dafny model

The announcement scheduler lets a shop operator schedule timed storefront
banners. Its logic is one SQLite table of announcements plus the rule that
picks the single announcement a storefront shows: among a shop's rows that
are switched on (`is_active = 1`) and whose window `[start_date, end_date]`
holds the current instant (inclusive at both ends), the one created last.
Around the table sit thin pure decisions:

- the server's shop resolution and response envelopes;
- the admin page's "Active" badge, form defaults, record-to-form mapping and
  create/update modal;
- the storefront script's fetch guard, render decision and dismissal storage.

This project models all of these as pure functions over immutable values and
proves their contracts.

Modules, one per component:

| file | module | models |
|---|---|---|
| `wrappers.dfy` | `Wrappers` | `Option` (null / NULL) and `Result` (a rejected promise) |
| `decimal.dfy` | `Decimal` | decimal printing of an id, with its read-back |
| `schema.dfy` | `Schema` | the table's columns, NOT NULL constraints, the AUTOINCREMENT high-water mark |
| `listing.dfy` | `Listing` | `WHERE` + `ORDER BY created_at DESC`, with SQL's freedom among ties |
| `resolver.dfy` | `Resolver` | the active-announcement query |
| `store.dfy` | `Store` | `dbOperations`: list, create, update, delete, delete-all |
| `api.dfy` | `Api` | `getShopDomain` and the six `/api` routes |
| `admin.dfy` | `Admin` | the admin page's decision logic and modal state machine |
| `widget.dfy` | `Widget` | the storefront script's decisions |

Abstractions:

- **Timestamps are integers** (milliseconds). SQL compares the stored dates
  as text, so this is sound only while every stored date has one uniform UTC
  ISO format.
- **`now` is a parameter:** the server clock in milliseconds. `created_at`
  and `updated_at` come from SQLite's `CURRENT_TIMESTAMP`, which has
  whole-second resolution. They hold `Schema.WholeSecond(now)`, the instant
  cut down to its second. So two creates in one second tie on `created_at`.
- **The table is a sequence of rows plus `lastId`,** the largest id ever
  handed out (SQLite's `sqlite_sequence`). The next id is one above both
  `lastId` and every present id, so ids are never reused.
- **A driver failure is the parameter `fault`** of each route. It stands for
  a locked or unreadable database.
- **Date parsing and printing are parameters** (`Admin.Env`):
  `new Date(text)` is `instant` (`None` for an invalid date) and
  `toISOString` is `iso`.
- **`localStorage` is a `map<string, string>`.**

## Model

| member | source | states |
|---|---|---|
| `Schema.NullColumn` | apps/announcement-scheduler/server/database.js:15-23 | the statement is rejected exactly when title, message, start_date, end_date (or shop_domain, when written) is NULL; for each column, it is the one named iff it is NULL and every earlier NOT NULL column is not |
| `Schema.WholeSecond` | apps/announcement-scheduler/server/database.js:24-25 | `CURRENT_TIMESTAMP` is the instant cut down to the start of its second |
| `Listing.Query` | apps/announcement-scheduler/server/database.js:44-46 | the result is exactly the accepted rows (as a multiset) ordered by created_at non-increasing |
| `Listing.QueryResultsAgree` | apps/announcement-scheduler/server/database.js:45 | any two orderings SQL may return differ only among rows tied on created_at |
| `Store.List` | apps/announcement-scheduler/server/database.js:42-53 | getAllAnnouncements returns exactly the rows of that shop, each as often as stored, newest first |
| `Resolver.FindActive` | apps/announcement-scheduler/server/database.js:56-74 | nothing iff no row of the shop is active with start <= now <= end; otherwise such a row that no qualifying row is newer than |
| `Resolver.PicksAgree` | apps/announcement-scheduler/server/database.js:65-66 | two correct answers of the LIMIT 1 query are both empty or tie on created_at |
| `Resolver.NewerWins` | apps/announcement-scheduler/server/database.js:65-66 | of two live rows of a shop, the strictly older is never served |
| `Store.NextId` | apps/announcement-scheduler/server/database.js:14 | the AUTOINCREMENT id exceeds the high-water mark and every present id |
| `Store.Create` | apps/announcement-scheduler/server/database.js:77-95 | fails with the table unchanged when a NOT NULL value is missing; otherwise appends one row, keeps every old row, stores the supplied fields (NULL colours stay NULL), sets is_active to 1 whatever the body says, created_at = updated_at = now in whole seconds, a fresh id above every id ever assigned, and echoes `{id, ...body}` |
| `Store.CreateThenList` | apps/announcement-scheduler/server/database.js:84-91 | after a create, listing the row's shop returns a row equal to the body on the eight columns the INSERT writes, with the new id and both timestamps; is_active is always 1 |
| `Store.Update` | apps/announcement-scheduler/server/database.js:98-118 | on rows with the id, overwrites exactly the eight SET columns and updated_at (now in whole seconds), keeping id, shop_domain and created_at; other rows are untouched; an absent id succeeds with the table unchanged; a NULL NOT NULL value fails only when a row matches |
| `Store.UpdateIdempotent` | apps/announcement-scheduler/server/database.js:105-111 | repeating an update equals a single update at the later time, and differs from the first result only in updated_at |
| `Store.Delete` | apps/announcement-scheduler/server/database.js:121-128 | removes exactly the rows with that id; an absent id leaves the table unchanged; on a valid table exactly one row goes when the id is present |
| `Store.Without` | apps/announcement-scheduler/server/database.js:123 | the rows kept by `DELETE … WHERE id = ?` are those with another id, ids stay distinct, and the count drops by the matches |
| `Store.DeleteAll` | apps/announcement-scheduler/server/database.js:131-141 | every row of every shop is removed, the count reported is the number of rows, the id high-water mark survives |
| `Store.SameSecondCreatesTie` | apps/announcement-scheduler/server/database.js:24 | two creates within one second get equal created_at (the later one a larger id), so the active query may serve either |
| `Store.ResetKeepsIdsFresh` | apps/announcement-scheduler/server/database.js:133 | after a reset the next created id is above every id held before |
| `Api.ShopDomain` | apps/announcement-scheduler/server/index.js:20-24 | the non-empty `shop` query parameter, else the non-empty `x-shop-domain` header, else `amper-myportfolio.myshopify.com` |
| `Api.ShopDomainSource` | apps/announcement-scheduler/server/index.js:23 | the resolved shop always comes from one of the three sources |
| `Api.GetAll` | apps/announcement-scheduler/server/index.js:29-38 | 200 with the resolved shop's rows newest first, each as often as it is stored and no other shop's, or 500 with the error |
| `Api.GetActive` | apps/announcement-scheduler/server/index.js:41-50 | 200 with `{success: true, data}` where data is a correct resolver answer for the resolved shop, or 500 with `{success: false, error}` |
| `Api.Post` | apps/announcement-scheduler/server/index.js:53-67 | the stored row's shop_domain is the resolved shop whatever the body says; 201 on success with one appended row that stores the body's eight INSERT columns, is_active 1, the next AUTOINCREMENT id (which becomes the high-water mark), both timestamps at the current second, and the `{id, ...body}` echo; a valid table stays valid; a NULL required column answers 500 with the driver's NOT NULL message and the table unchanged |
| `Api.Put` | apps/announcement-scheduler/server/index.js:70-79 | acts by id alone, overwriting rows of any shop; fails only on a driver fault or when a matching row would get a NULL NOT NULL value, then with the driver's NOT NULL message; on success answers 200 with the `{id, ...body}` echo; never moves the high-water mark and keeps a valid table valid |
| `Api.CrossShopPut` | apps/announcement-scheduler/server/index.js:70-79 | a request resolved to one shop overwrites another shop's row |
| `Api.Delete` | apps/announcement-scheduler/server/index.js:82-91 | without a fault, the success envelope is returned whether or not the id existed, exactly the rows with that id go (one on a valid table), an absent id changes nothing, the high-water mark stays and the table stays valid |
| `Api.Reset` | apps/announcement-scheduler/server/index.js:95-103 | rows of all shops are removed, not just the resolved one's |
| `Api.FreshStore` | apps/announcement-scheduler/server/database.js:13-26 | the freshly created table is valid, lists no rows and serves no announcement to any shop, and deleting from it changes nothing |
| `Api.PostThenActive` | apps/announcement-scheduler/server/database.js:85-86 | a freshly created row is served to its shop while its window holds, provided every older row was created in an earlier second, even if the body asked for is_active false |
| `Admin.IsActive` | apps/announcement-scheduler/client/src/components/AnnouncementManager.js:135-145 | false for no record; otherwise true iff is_active is truthy and start <= now <= end (an invalid date makes it false) |
| `Admin.BadgeAgreesWithResolver` | apps/announcement-scheduler/client/src/components/AnnouncementManager.js:140-144 | the badge equals the active query's per-row WHERE condition (minus the shop filter) when dates read back as stored |
| `Admin.BadgeIsNotExclusive` | apps/announcement-scheduler/client/src/components/AnnouncementManager.js:151-168 | two live rows of a shop both show "Active" while the server serves a row and never the strictly older of the two |
| `Admin.BeforeT` | apps/announcement-scheduler/client/src/components/AnnouncementManager.js:109-110 | the result is the prefix up to the first `T` (all of it when there is none) |
| `Admin.BeforeTIdempotent` | apps/announcement-scheduler/client/src/components/AnnouncementManager.js:109-110 | cutting a date at `T` twice equals cutting once |
| `Admin.BlankForm` | apps/announcement-scheduler/client/src/components/AnnouncementManager.js:91-100 | empty title, message and link, colours #000000 / #ffffff, switched on, dates are the ISO texts of now and of a week later, each cut before its first `T` |
| `Admin.ResetForm` | apps/announcement-scheduler/client/src/components/AnnouncementManager.js:90-102 | installs the default form and unbinds the edited record, leaving the modal, list, toast and loading flag as they are |
| `Admin.EditForm` | apps/announcement-scheduler/client/src/components/AnnouncementManager.js:106-115 | each date becomes its text before the first `T`, a null link becomes `''`, is_active is coerced to a boolean, other fields copied |
| `Admin.HandleEdit` | apps/announcement-scheduler/client/src/components/AnnouncementManager.js:105-118 | the modal opens bound to the record with its form filled; list, toast and loading flag unchanged |
| `Admin.OpenCreate` | apps/announcement-scheduler/client/src/components/AnnouncementManager.js:216-219 | "Create Announcement" opens the modal with the default form and no bound record; list, toast and loading flag unchanged |
| `Admin.CloseModal` | apps/announcement-scheduler/client/src/components/AnnouncementManager.js:251-254 | closing (and Cancel, lines 263-266) always leaves the modal closed with no record bound and the default form |
| `Admin.SubmitBody` | apps/announcement-scheduler/client/src/components/AnnouncementManager.js:66-70 | the body is the form with both dates normalised, and no body is sent when a date is invalid |
| `Admin.HandleSubmit` | apps/announcement-scheduler/client/src/components/AnnouncementManager.js:64-87 | an update of the bound record's id when one is bound, a create otherwise; on success the modal closes, the form resets and the list starts reloading with the old items still shown; on failure only an error toast appears |
| `Admin.StepCoherent` | apps/announcement-scheduler/client/src/components/AnnouncementManager.js:249-268 | every modal action keeps "closed implies nothing bound"; closing always ends closed and unbound |
| `Admin.RunCoherent` | apps/announcement-scheduler/client/src/components/AnnouncementManager.js:249-268 | any run of actions keeps "closed implies nothing bound" |
| `Admin.Initial` | apps/announcement-scheduler/client/src/components/AnnouncementManager.js:27-43 | the page starts loading with an empty list, no toast, the modal closed, nothing bound and the default form |
| `Admin.EditThenSubmit` | apps/announcement-scheduler/client/src/components/AnnouncementManager.js:105-118 | saving an edited record unchanged updates that id, writing back its texts, colours and flag; only the date part of the start and of the end date is sent |
| `Admin.OpenThenSubmit` | apps/announcement-scheduler/client/src/components/AnnouncementManager.js:90-101 | submitting the untouched create form creates the defaults, including both default dates normalised |
| `Widget.ApiBase` | apps/announcement-scheduler/theme-integration/assets/announcement-bar.js:7 | the local URL iff the hostname is `localhost` |
| `Widget.ActiveUrl` | apps/announcement-scheduler/theme-integration/assets/announcement-bar.js:15 | the URL is the API base followed by the active route with the hostname as the `shop` parameter |
| `Widget.ShopIsHostname` | apps/announcement-scheduler/theme-integration/assets/announcement-bar.js:10-15 | the server resolves the storefront's request to the hostname |
| `Widget.Announcement` | apps/announcement-scheduler/theme-integration/assets/announcement-bar.js:17-18 | an announcement is passed on only when success is true and data is present |
| `Widget.DismissKey` | apps/announcement-scheduler/theme-integration/assets/announcement-bar.js:32 | the key is `announcement-dismissed-` followed by the id's decimal text |
| `Widget.DismissKeyInjective` | apps/announcement-scheduler/theme-integration/assets/announcement-bar.js:32 | different ids have different keys |
| `Decimal.ValueOfShow` | apps/announcement-scheduler/theme-integration/assets/announcement-bar.js:32 | the id's decimal text reads back as the id |
| `Widget.Display` | apps/announcement-scheduler/theme-integration/assets/announcement-bar.js:27-50 | no bar without a container or once the key holds a truthy value; colours default to #000000 / #ffffff; a link iff link_url is non-empty; the text is the message in both cases |
| `Widget.Dismiss` | apps/announcement-scheduler/theme-integration/assets/announcement-bar.js:57-60 | sets exactly the announcement's key and leaves every other key unchanged |
| `Widget.DismissSuppressesOnlyThatId` | apps/announcement-scheduler/theme-integration/assets/announcement-bar.js:57-59 | after dismissing, that id is never drawn again and any other id is drawn exactly as before |
| `Widget.Load` | apps/announcement-scheduler/theme-integration/assets/announcement-bar.js:13-23 | a bar is drawn iff the container exists and the response carries an announcement that was not dismissed; it is that announcement's bar, showing its message |
| `Widget.StorefrontShowsResolved` | apps/announcement-scheduler/theme-integration/assets/announcement-bar.js:13-18 | a page shows a bar iff the resolver finds an undismissed announcement for the hostname, and shows its message |
| `Widget.ServerErrorShowsNothing` | apps/announcement-scheduler/theme-integration/assets/announcement-bar.js:17-18 | a 500 envelope draws nothing |

## Quirks of the code

The model keeps these behaviours of the code as they are:

- **An inactive create is stored active.** The admin form sends its
  "Active" checkbox (AnnouncementManager.js:325-329), but the INSERT
  (database.js:85-88) never lists `is_active`, so the column default 1
  (database.js:19) applies. `Api.PostThenActive` shows such a row is served.
- **Missing ids are not errors.** Update and delete on an absent id
  resolve successfully (database.js:112-114, 123-125). The driver's count
  of changed rows is never read.
- **Colour defaults never apply on create.** A create whose body omits the
  colours stores NULL, not `#000000` / `#ffffff`. The INSERT lists both
  columns (database.js:86), so their defaults (database.js:20-21) are
  overridden. The storefront falls back to the same colours when drawing
  (announcement-bar.js:38-39).
- **No active row means no `data` key.** The active route sends
  `{success: true, data: undefined}` (index.js:45), so `data` is absent
  from the JSON rather than `null`.
- **Same-second creates tie.** `created_at` has whole-second resolution
  (database.js:24), and `ORDER BY created_at DESC LIMIT 1`
  (database.js:65-66) may then serve either of two announcements created
  within one second.

## Left out

- The health route (`/api/health`): a constant reply with no logic.
- The sqlite3 driver, promises and callbacks: modelled as pure functions,
  with a driver failure as the `fault` parameter.
- The 404 catch-all, static files, the fallback admin page, CORS,
  `app.listen` and environment handling: framework glue.
- Timestamp formats: `CURRENT_TIMESTAMP` (`YYYY-MM-DD HH:MM:SS`) and ISO
  text do not order consistently as text. The model assumes one uniform
  format.
- The `:id` path parameter is text that SQLite converts by column
  affinity. It is modelled as an integer; a non-numeric id is an integer no
  row has.
- JSON values of unexpected types are not modelled. Text fields are text
  or null, dates are instants or null, and `is_active` is true, false, 0,
  1 or null.
- Admin.BadgeAgreesWithResolver: holds only for `is_active` values true,
  false, 0, 1 and null. Another value stored by an update, such as
  `is_active: 2` or `"yes"` (database.js:108), is truthy for the badge
  (AnnouncementManager.js:144) but never equals 1 in the active query
  (database.js:62). Such a row would show "Active" without ever being
  served.
- AUTOINCREMENT exhaustion at 2^63-1 (SQLITE_FULL): ids are unbounded.
- Concurrent requests: every operation is one atomic step.
- `deleteAnnouncement` resolves with `{deletedId}`. The route discards
  it, so `Store.Delete` returns only the table.
- `loadAnnouncements`, `handleDelete` (with `window.confirm`), toast
  dismissal, the loading frame and every Polaris rendering: UI and I/O.
  `Admin.HandleSubmit` records only that a reload starts.
- Widget: a fetch that throws or a body that is not JSON only logs. Only a
  500 envelope is modelled (`Widget.ServerErrorShowsNothing`).
- Widget.Announcement: reads only the active route's envelope, whose `data`
  is one row or absent. Other `data` shapes yield nothing here, whereas the
  script would try to draw them.
- The hostname is not URL-encoded in the query string. The model hands it
  to the server unchanged.
- DOM creation, styling, and hiding the bar on close.

=== FILE: admin.dfy ===
/** The decision logic of the admin page (`AnnouncementManager`): the
    per-item "Active" badge, the form defaults, the record-to-form mapping,
    and the modal state machine that decides between create and update.
    Rendering, HTTP and toasts' timing are not modelled. Timestamps count
    milliseconds; `instant` is JavaScript's `new Date(text)` (None for an
    invalid date) and `iso` is `Date.prototype.toISOString`. */
module Admin {
  import opened Wrappers
  import opened Schema
  import Resolver

  /** An announcement as the list route's JSON delivers it to the page:
      the dates are the stored text. */
  datatype Listed = Listed(
    id: nat,
    title: string,
    message: string,
    startDate: string,
    endDate: string,
    isActive: Option<bool>,
    backgroundColor: Option<string>,
    textColor: Option<string>,
    linkUrl: Option<string>)

  /** A stored row as it reaches the page, dates rendered by `text`. */
  function View(r: Row, text: Timestamp -> string): (a: Listed)
    ensures a.id == r.id && a.isActive == r.isActive
    ensures a.startDate == text(r.startDate) && a.endDate == text(r.endDate)
  {
    Listed(r.id, r.title, r.message, text(r.startDate), text(r.endDate),
           r.isActive, r.backgroundColor, r.textColor, r.linkUrl)
  }

  /** JavaScript truthiness of the `is_active` column's JSON value (1, 0 or
      null). */
  predicate Truthy(b: Option<bool>) {
    b == Some(true)
  }

  /** `isActive`: the badge shown on a list item. An invalid date makes
      both comparisons false. */
  function IsActive(a: Option<Listed>, now: Timestamp, instant: string -> Option<Timestamp>): (active: bool)
    ensures a.None? ==> !active
    ensures active <==>
      && a.Some? && Truthy(a.value.isActive)
      && instant(a.value.startDate).Some? && instant(a.value.startDate).value <= now
      && instant(a.value.endDate).Some? && now <= instant(a.value.endDate).value
  {
    match a
    case None => false
    case Some(x) =>
      && Truthy(x.isActive)
      && match instant(x.startDate)
         case None => false
         case Some(start) =>
           && start <= now
           && match instant(x.endDate)
              case None => false
              case Some(end) => now <= end
  }

  /** The badge and the server agree: when the dates read back as stored, a
      row shows "Active" exactly when the active query's per-row condition
      holds for it. */
  lemma BadgeAgreesWithResolver(r: Row, now: Timestamp, text: Timestamp -> string,
                                instant: string -> Option<Timestamp>)
    requires instant(text(r.startDate)) == Some(r.startDate)
    requires instant(text(r.endDate)) == Some(r.endDate)
    ensures IsActive(Some(View(r, text)), now, instant) <==> Resolver.Live(r, now)
    ensures IsActive(Some(View(r, text)), now, instant) <==> Resolver.Qualifies(r, r.shopDomain, now)
  {
  }

  /** The badge is per item, the server's choice is across items: two live
      rows of one shop both show "Active", while the server serves one and
      never the strictly older of the two. */
  lemma BadgeIsNotExclusive(t: Table, shop: string, now: Timestamp, a: Row, b: Row,
                            text: Timestamp -> string, instant: string -> Option<Timestamp>)
    requires a in t.rows && b in t.rows && a != b
    requires Resolver.Qualifies(a, shop, now) && Resolver.Qualifies(b, shop, now)
    requires instant(text(a.startDate)) == Some(a.startDate) && instant(text(a.endDate)) == Some(a.endDate)
    requires instant(text(b.startDate)) == Some(b.startDate) && instant(text(b.endDate)) == Some(b.endDate)
    ensures IsActive(Some(View(a, text)), now, instant) && IsActive(Some(View(b, text)), now, instant)
    ensures Resolver.FindActive(t, shop, now).Some?
    ensures a.createdAt < b.createdAt ==> Resolver.FindActive(t, shop, now) != Some(a)
    ensures b.createdAt < a.createdAt ==> Resolver.FindActive(t, shop, now) != Some(b)
  {
  }

  // ----------------------------------------------------------------- form

  /** `s.split('T')[0]`: the text before the first `T`, all of it when there
      is none. */
  function BeforeT(s: string): (r: string)
    ensures r <= s
    ensures 'T' !in r
    ensures |r| < |s| ==> s[|r|] == 'T'
  {
    if |s| == 0 || s[0] == 'T' then "" else [s[0]] + BeforeT(s[1..])
  }

  /** Cutting at `T` twice cuts nothing more. */
  lemma BeforeTIdempotent(s: string)
    ensures BeforeT(BeforeT(s)) == BeforeT(s)
  {
  }

  /** The form's state. Colours may be null after editing a row that
      stores NULL. */
  datatype Form = Form(
    title: string,
    message: string,
    startDate: string,
    endDate: string,
    backgroundColor: Option<string>,
    textColor: Option<string>,
    linkUrl: string,
    isActive: bool)

  /** Milliseconds in seven days: the default window's length. */
  const WeekMs: int := 7 * 24 * 60 * 60 * 1000

  /** The clock and date library the page runs against. */
  datatype Env = Env(now: Timestamp, iso: Timestamp -> string, instant: string -> Option<Timestamp>)

  /** The defaults `resetForm` installs: empty texts, black on white,
      switched on, running from today for a week. */
  function BlankForm(env: Env): (f: Form)
    ensures f.title == "" && f.message == "" && f.linkUrl == ""
    ensures f.backgroundColor == Some("#000000") && f.textColor == Some("#ffffff")
    ensures f.isActive
    ensures f.startDate == BeforeT(env.iso(env.now))
    ensures f.endDate == BeforeT(env.iso(env.now + WeekMs))
  {
    Form("", "", BeforeT(env.iso(env.now)), BeforeT(env.iso(env.now + WeekMs)),
         Some("#000000"), Some("#ffffff"), "", true)
  }

  /** The form `handleEdit` fills from a record. */
  function EditForm(a: Listed): (f: Form)
    ensures f.title == a.title && f.message == a.message
    ensures f.startDate == BeforeT(a.startDate) && f.endDate == BeforeT(a.endDate)
    ensures f.backgroundColor == a.backgroundColor && f.textColor == a.textColor
    ensures f.linkUrl == a.linkUrl.GetOr("")
    ensures f.isActive <==> Truthy(a.isActive)
  {
    Form(a.title, a.message, BeforeT(a.startDate), BeforeT(a.endDate),
         a.backgroundColor, a.textColor,
         match a.linkUrl case Some(u) => u case None => "",
         Truthy(a.isActive))
  }

  // ---------------------------------------------------------------- state

  datatype Toast = Toast(content: string, isError: bool)

  /** The page's state: the loaded list, the loading flag, whether the
      modal is open, the record being edited, the form and the toast. */
  datatype Ui = Ui(
    items: seq<Listed>,
    loading: bool,
    modalOpen: bool,
    editing: Option<Listed>,
    form: Form,
    toast: Option<Toast>)

  /** `resetForm`: default form, no record bound; the modal is untouched. */
  function ResetForm(ui: Ui, env: Env): (u: Ui)
    ensures u.form == BlankForm(env) && u.editing.None?
    ensures u.modalOpen == ui.modalOpen && u.items == ui.items && u.toast == ui.toast
    ensures u.loading == ui.loading
  {
    ui.(form := BlankForm(env), editing := None)
  }

  /** "Create Announcement" (page or empty-state action). */
  function OpenCreate(ui: Ui, env: Env): (u: Ui)
    ensures u.modalOpen && u.editing.None? && u.form == BlankForm(env)
    ensures u.items == ui.items && u.toast == ui.toast && u.loading == ui.loading
  {
    ResetForm(ui, env).(modalOpen := true)
  }

  /** `handleEdit`: the modal opens bound to `a`, its form filled from it. */
  function HandleEdit(ui: Ui, a: Listed): (u: Ui)
    ensures u.modalOpen && u.editing == Some(a) && u.form == EditForm(a)
    ensures u.items == ui.items && u.toast == ui.toast && u.loading == ui.loading
  {
    ui.(form := EditForm(a), editing := Some(a), modalOpen := true)
  }

  /** The modal's close button and its Cancel action (the same handler). */
  function CloseModal(ui: Ui, env: Env): (u: Ui)
    ensures !u.modalOpen && u.editing.None? && u.form == BlankForm(env)
    ensures u.items == ui.items && u.toast == ui.toast && u.loading == ui.loading
  {
    ResetForm(ui.(modalOpen := false), env)
  }

  /** The request a submit sends. */
  datatype Call = Update(id: nat, body: Fields) | Create(body: Fields)

  /** The body `handleSubmit` sends: the form with both dates normalised by
      `new Date(d).toISOString()`, which throws on an invalid date. */
  function SubmitBody(form: Form, env: Env): (b: Option<Fields>)
    ensures b.Some? <==> env.instant(form.startDate).Some? && env.instant(form.endDate).Some?
    ensures b.Some? ==>
      && b.value.title == Some(form.title) && b.value.message == Some(form.message)
      && b.value.startDate == env.instant(form.startDate)
      && b.value.endDate == env.instant(form.endDate)
      && b.value.isActive == Some(form.isActive)
      && b.value.backgroundColor == form.backgroundColor && b.value.textColor == form.textColor
      && b.value.linkUrl == Some(form.linkUrl)
      && b.value.id.None? && b.value.shopDomain.None?
  {
    match (env.instant(form.startDate), env.instant(form.endDate))
    case (Some(s), Some(e)) =>
      Some(Fields(None, Some(form.title), Some(form.message), Some(s), Some(e),
                  Some(form.isActive), form.backgroundColor, form.textColor,
                  Some(form.linkUrl), None))
    case _ => None
  }

  /** The page after a submit, and the request it sent (none when a date
      was invalid). */
  datatype Submitted = Submitted(ui: Ui, call: Option<Call>)

  /** `handleSubmit`. `accepted` is whether the server answered with a
      success status. An update goes to the bound record's id, a create
      otherwise; on success the modal closes, the form resets and the list
      starts reloading; on any failure an error toast appears and the modal
      stays as it was. */
  function HandleSubmit(ui: Ui, env: Env, accepted: bool): (s: Submitted)
    ensures s.call.Some? <==> SubmitBody(ui.form, env).Some?
    ensures s.call.Some? ==>
      match ui.editing
      case Some(a) => s.call.value == Update(a.id, SubmitBody(ui.form, env).value)
      case None => s.call.value == Create(SubmitBody(ui.form, env).value)
    ensures s.call.Some? && accepted ==>
      && !s.ui.modalOpen && s.ui.editing.None? && s.ui.form == BlankForm(env)
      && s.ui.loading && s.ui.items == ui.items
      && s.ui.toast == Some(Toast(if ui.editing.Some? then "Announcement updated successfully"
                                  else "Announcement created successfully", false))
    ensures s.call.None? || !accepted ==>
      s.ui == ui.(toast := Some(Toast("Error saving announcement", true)))
  {
    match SubmitBody(ui.form, env)
    case None => Submitted(ui.(toast := Some(Toast("Error saving announcement", true))), None)
    case Some(body) =>
      var call := if ui.editing.Some? then Update(ui.editing.value.id, body) else Create(body);
      if !accepted then
        Submitted(ui.(toast := Some(Toast("Error saving announcement", true))), Some(call))
      else
        var done := if ui.editing.Some? then "Announcement updated successfully"
                    else "Announcement created successfully";
        var u := ResetForm(ui.(toast := Some(Toast(done, false)), modalOpen := false), env);
        Submitted(u.(loading := true), Some(call))
  }

  // -------------------------------------------------------- state machine

  /** The user actions that drive the modal. */
  datatype Event = Open | Edit(a: Listed) | Close | Submit(accepted: bool)

  /** One action. A submit is only reachable from inside the open modal. */
  function Step(ui: Ui, env: Env, e: Event): Ui {
    match e
    case Open => OpenCreate(ui, env)
    case Edit(a) => HandleEdit(ui, a)
    case Close => CloseModal(ui, env)
    case Submit(accepted) => if ui.modalOpen then HandleSubmit(ui, env, accepted).ui else ui
  }

  /** A run of actions. */
  function Run(ui: Ui, env: Env, es: seq<Event>): Ui
    decreases |es|
  {
    if |es| == 0 then ui else Run(Step(ui, env, es[0]), env, es[1..])
  }

  /** A closed modal never keeps a record bound, so the next "Create" can
      never turn into an update of a stale record. */
  ghost predicate Coherent(ui: Ui) {
    !ui.modalOpen ==> ui.editing.None?
  }

  /** Every action keeps the modal coherent, and closing always lands on a
      closed modal with no record bound. */
  lemma StepCoherent(ui: Ui, env: Env, e: Event)
    requires Coherent(ui)
    ensures Coherent(Step(ui, env, e))
    ensures e.Close? ==> !Step(ui, env, e).modalOpen && Step(ui, env, e).editing.None?
  {
  }

  /** Any run from the page's initial state stays coherent. */
  lemma {:induction false} RunCoherent(ui: Ui, env: Env, es: seq<Event>)
    requires Coherent(ui)
    ensures Coherent(Run(ui, env, es))
    decreases |es|
  {
    if |es| > 0 {
      StepCoherent(ui, env, es[0]);
      RunCoherent(Step(ui, env, es[0]), env, es[1..]);
    }
  }

  /** The page as first rendered: loading, modal closed, default form. */
  function Initial(env: Env): (ui: Ui)
    ensures Coherent(ui) && ui.loading && !ui.modalOpen
    ensures ui.items == [] && ui.editing.None? && ui.toast.None? && ui.form == BlankForm(env)
  {
    Ui([], true, false, None, BlankForm(env), None)
  }

  /** Editing a record and saving it unchanged sends an update of that
      record's id that writes back its texts, colours and flag (a null link
      becomes the empty text). Its dates are only the date part, so the
      stored times of day are lost. */
  lemma EditThenSubmit(ui: Ui, env: Env, a: Listed)
    requires env.instant(BeforeT(a.startDate)).Some? && env.instant(BeforeT(a.endDate)).Some?
    ensures var s := HandleSubmit(HandleEdit(ui, a), env, true);
      && s.call.Some? && s.call.value.Update? && s.call.value.id == a.id
      && var b := s.call.value.body;
      && b.title == Some(a.title) && b.message == Some(a.message)
      && b.backgroundColor == a.backgroundColor && b.textColor == a.textColor
      && b.linkUrl == Some(a.linkUrl.GetOr(""))
      && (b.isActive == Some(true) <==> Truthy(a.isActive))
      && b.startDate == env.instant(BeforeT(a.startDate))
      && b.endDate == env.instant(BeforeT(a.endDate))
      && !s.ui.modalOpen && s.ui.editing.None?
  {
  }

  /** Submitting the untouched "Create" form sends a create of the defaults. */
  lemma OpenThenSubmit(ui: Ui, env: Env)
    requires env.instant(BlankForm(env).startDate).Some? && env.instant(BlankForm(env).endDate).Some?
    ensures var s := HandleSubmit(OpenCreate(ui, env), env, true);
      && s.call.Some? && s.call.value.Create?
      && var b := s.call.value.body;
      && b.title == Some("") && b.message == Some("") && b.linkUrl == Some("")
      && b.backgroundColor == Some("#000000") && b.textColor == Some("#ffffff")
      && b.isActive == Some(true)
      && b.startDate == env.instant(BeforeT(env.iso(env.now)))
      && b.endDate == env.instant(BeforeT(env.iso(env.now + WeekMs)))
  {
  }
}

=== FILE: api.dfy ===
/** The server's `/api` routes. Each handler resolves the shop, calls one
    database operation and wraps the outcome in the JSON envelope
    `{success, data | message | error}`. A failure of the database driver
    itself (disk, lock, I/O) is the parameter `fault`: the operation then
    rejects with that message and changes nothing. */
module Api {
  import opened Wrappers
  import opened Schema
  import Store
  import Resolver
  import Listing

  /** The shop used when a request names none. */
  const DefaultShop: string := "amper-myportfolio.myshopify.com"

  /** The parts of an Express request the handlers read: the parsed query
      string, the (lower-cased) headers and the parsed JSON body. */
  datatype Request = Request(query: map<string, string>, headers: map<string, string>, body: Fields)

  /** The `data` member of an envelope. */
  datatype Data =
    | Rows(rows: seq<Row>)          // the list route
    | Active(row: Option<Row>)      // the active route; None is an absent `data`
    | Echoed(echo: Store.Echo)      // what create and update resolve with

  datatype Envelope = Envelope(success: bool, data: Option<Data>, message: Option<string>, error: Option<string>)

  datatype Response = Response(status: nat, body: Envelope)

  /** A write route's result: the table afterwards and the reply. */
  datatype Outcome = Outcome(table: Table, response: Response)

  /** A JavaScript string is truthy when it is not empty. */
  predicate Given(m: map<string, string>, key: string) {
    key in m && m[key] != ""
  }

  /** `getShopDomain`: the `shop` query parameter, else the `x-shop-domain`
      header, else the fixed default; an empty value counts as missing. */
  function ShopDomain(req: Request): (shop: string)
    ensures shop != ""
    ensures Given(req.query, "shop") ==> shop == req.query["shop"]
    ensures !Given(req.query, "shop") && Given(req.headers, "x-shop-domain") ==> shop == req.headers["x-shop-domain"]
    ensures !Given(req.query, "shop") && !Given(req.headers, "x-shop-domain") ==> shop == DefaultShop
  {
    if Given(req.query, "shop") then req.query["shop"]
    else if Given(req.headers, "x-shop-domain") then req.headers["x-shop-domain"]
    else DefaultShop
  }

  function Reply(status: nat, data: Data): (r: Response)
    ensures r.body.success
  {
    Response(status, Envelope(true, Some(data), None, None))
  }

  function Note(message: string): (r: Response)
    ensures r.status == 200 && r.body.success
  {
    Response(200, Envelope(true, None, Some(message), None))
  }

  /** The `catch` branch shared by every route. */
  function ServerError(error: string): (r: Response)
    ensures r.status == 500 && !r.body.success && r.body.error == Some(error)
  {
    Response(500, Envelope(false, None, None, Some(error)))
  }

  /** GET /api/announcements */
  function GetAll(t: Table, req: Request, fault: Option<string>): (r: Response)
    ensures fault.Some? ==> r == ServerError(fault.value)
    ensures fault.None? ==>
      && r.status == 200 && r.body.success && r.body.data.Some? && r.body.data.value.Rows?
      && var rows := r.body.data.value.rows;
      && (forall x :: x in rows <==> x in t.rows && x.shopDomain == ShopDomain(req))
      && (forall x :: multiset(rows)[x] ==
            (if x.shopDomain == ShopDomain(req) then multiset(t.rows)[x] else 0))
      && Listing.NewestFirst(rows)
  {
    if fault.Some? then ServerError(fault.value)
    else Reply(200, Rows(Store.List(t, ShopDomain(req))))
  }

  /** GET /api/announcements/active */
  function GetActive(t: Table, req: Request, now: Timestamp, fault: Option<string>): (r: Response)
    ensures fault.Some? ==> r == ServerError(fault.value)
    ensures fault.None? ==>
      && r.status == 200 && r.body.success && r.body.data.Some? && r.body.data.value.Active?
      && Resolver.IsPick(t.rows, ShopDomain(req), now, r.body.data.value.row)
  {
    if fault.Some? then ServerError(fault.value)
    else Reply(200, Active(Resolver.FindActive(t, ShopDomain(req), now)))
  }

  /** POST /api/announcements: the body with `shop_domain` replaced by the
      resolved shop, whatever the client sent. */
  function Post(t: Table, req: Request, now: Timestamp, fault: Option<string>): (o: Outcome)
    ensures fault.Some? ==> o == Outcome(t, ServerError(fault.value))
    ensures o.response.body.success <==> fault.None? && NullColumn(req.body, false).None?
    ensures !o.response.body.success ==> o.table == t && o.response.status == 500
    ensures fault.None? && NullColumn(req.body, false).Some? ==>
      o.response == ServerError(ErrorMessage(NotNull(NullColumn(req.body, false).value)))
    ensures o.response.body.success ==>
      && o.response.status == 201
      && |o.table.rows| == |t.rows| + 1
      && o.table.rows[..|t.rows|] == t.rows
      && var n := o.table.rows[|t.rows|];
      && n.shopDomain == ShopDomain(req)
      && Store.Stores(n, req.body.(shopDomain := Some(ShopDomain(req))))
      && n.isActive == Some(true)
      && n.id == Store.NextId(t) && o.table.lastId == n.id
      && n.createdAt == WholeSecond(now) && n.updatedAt == WholeSecond(now)
      && o.response.body.data == Some(Echoed(Store.Echo(req.body.id.GetOr(n.id), req.body.(shopDomain := Some(ShopDomain(req))))))
    ensures Valid(t) ==> Valid(o.table)
  {
    if fault.Some? then Outcome(t, ServerError(fault.value))
    else
      var f := req.body.(shopDomain := Some(ShopDomain(req)));
      match Store.Create(t, f, now)
      case Failure(e) => Outcome(t, ServerError(ErrorMessage(e)))
      case Success(w) => Outcome(w.table, Reply(201, Echoed(w.echo)))
  }

  /** PUT /api/announcements/:id — by id alone; the resolved shop plays no
      part, so any shop's row can be changed. */
  function Put(t: Table, id: int, req: Request, now: Timestamp, fault: Option<string>): (o: Outcome)
    ensures fault.Some? ==> o == Outcome(t, ServerError(fault.value))
    ensures o.response.body.success <==> fault.None? && !(HasId(t.rows, id) && NullColumn(req.body, false).Some?)
    ensures !o.response.body.success ==> o.table == t && o.response.status == 500
    ensures fault.None? && HasId(t.rows, id) && NullColumn(req.body, false).Some? ==>
      o.response == ServerError(ErrorMessage(NotNull(NullColumn(req.body, false).value)))
    ensures o.table.lastId == t.lastId
    ensures o.response.body.success ==>
      && o.response.status == 200
      && |o.table.rows| == |t.rows|
      && (forall i :: 0 <= i < |t.rows| && t.rows[i].id != id ==> o.table.rows[i] == t.rows[i])
      && (forall i :: 0 <= i < |t.rows| && t.rows[i].id == id ==>
            Store.Overwritten(t.rows[i], o.table.rows[i], req.body, now))
      && o.response.body.data == Some(Echoed(Store.Echo(req.body.id.GetOr(id), req.body)))
    ensures Valid(t) ==> Valid(o.table)
  {
    if fault.Some? then Outcome(t, ServerError(fault.value))
    else
      match Store.Update(t, id, req.body, now)
      case Failure(e) => Outcome(t, ServerError(ErrorMessage(e)))
      case Success(w) => Outcome(w.table, Reply(200, Echoed(w.echo)))
  }

  /** DELETE /api/announcements/:id — by id alone, and a success whether or
      not the id existed. */
  function Delete(t: Table, id: int, fault: Option<string>): (o: Outcome)
    ensures fault.Some? ==> o == Outcome(t, ServerError(fault.value))
    ensures fault.None? ==>
      && o.response == Note("Announcement deleted successfully")
      && (forall x :: x in o.table.rows <==> x in t.rows && x.id != id)
      && (!HasId(t.rows, id) ==> o.table == t)
      && (Valid(t) && HasId(t.rows, id) ==> |o.table.rows| == |t.rows| - 1)
    ensures o.table.lastId == t.lastId
    ensures Valid(t) ==> Valid(o.table)
  {
    if fault.Some? then Outcome(t, ServerError(fault.value))
    else Outcome(Store.Delete(t, id), Note("Announcement deleted successfully"))
  }

  /** GET /api/reset — empties the table for every shop; the request's
      shop is not even read. */
  function Reset(t: Table, fault: Option<string>): (o: Outcome)
    ensures fault.Some? ==> o == Outcome(t, ServerError(fault.value))
    ensures fault.None? ==> o.table.rows == [] && o.response == Note("Database reset")
    ensures o.table.lastId == t.lastId
  {
    if fault.Some? then Outcome(t, ServerError(fault.value))
    else Outcome(Store.DeleteAll(t).table, Note("Database reset"))
  }

  // --------------------------------------------------------------- lemmas

  /** The resolved shop always comes from one of the three sources. */
  lemma ShopDomainSource(req: Request)
    ensures || (Given(req.query, "shop") && ShopDomain(req) == req.query["shop"])
            || (Given(req.headers, "x-shop-domain") && ShopDomain(req) == req.headers["x-shop-domain"])
            || ShopDomain(req) == DefaultShop
  {
  }

  /** A row of one shop can be overwritten through a request resolved to
      another shop: nothing ties the id to the caller's shop. */
  lemma CrossShopPut(t: Table, i: nat, req: Request, now: Timestamp)
    requires i < |t.rows|
    requires t.rows[i].shopDomain != ShopDomain(req)
    requires NullColumn(req.body, false).None?
    ensures var o := Put(t, t.rows[i].id, req, now, None);
      && o.response.body.success
      && o.table.rows[i].shopDomain == t.rows[i].shopDomain
      && Some(o.table.rows[i].message) == req.body.message
  {
  }

  /** A created announcement is served at once to its shop while its window
      holds, provided every older row was created in an earlier second — even when the body asked for `is_active: false`, because the
      INSERT never writes that column. */
  lemma PostThenActive(t: Table, req: Request, later: Request, now: Timestamp, at: Timestamp)
    requires forall x :: x in t.rows ==> x.createdAt < WholeSecond(now)
    requires Post(t, req, now, None).response.body.success
    requires req.body.startDate.value <= at <= req.body.endDate.value
    requires ShopDomain(later) == ShopDomain(req)
    ensures var o := Post(t, req, now, None);
      GetActive(o.table, later, at, None).body.data == Some(Active(Some(o.table.rows[|t.rows|])))
  {
    var o := Post(t, req, now, None);
    var n := o.table.rows[|t.rows|];
    var shop := ShopDomain(req);
    assert n in o.table.rows;
    assert Resolver.Qualifies(n, shop, at);
    var a := Resolver.FindActive(o.table, shop, at);
    assert a.Some?;
    assert forall x :: x in o.table.rows ==> x in t.rows || x == n by {
      assert o.table.rows == t.rows + [n];
    }
    assert a.value == n;
  }

  /** A fresh database lists nothing and serves nothing, for any shop. */
  lemma FreshStore(req: Request, now: Timestamp)
    ensures Valid(Empty())
    ensures GetAll(Empty(), req, None) == Reply(200, Rows([]))
    ensures GetActive(Empty(), req, now, None) == Reply(200, Active(None))
    ensures forall id :: Delete(Empty(), id, None).table == Empty()
  {
  }
}

=== FILE: decimal.dfy ===
/** Decimal rendering of a non-negative integer, as JavaScript's template
    literals print an integral number (no sign, no leading zeros). */
module Decimal {

  predicate IsDigit(c: char) {
    '0' <= c <= '9'
  }

  function DigitChar(d: nat): (c: char)
    requires d < 10
    ensures IsDigit(c)
    ensures c as int - '0' as int == d
  {
    ['0', '1', '2', '3', '4', '5', '6', '7', '8', '9'][d]
  }

  /** The decimal text of `n`. */
  function Show(n: nat): (s: string)
    ensures |s| >= 1
    ensures forall i :: 0 <= i < |s| ==> IsDigit(s[i])
    ensures n >= 10 ==> s[0] != '0'
    decreases n
  {
    if n < 10 then [DigitChar(n)] else Show(n / 10) + [DigitChar(n % 10)]
  }

  /** The value of a string of decimal digits, most significant first. */
  function Value(s: string): nat
    requires forall i :: 0 <= i < |s| ==> IsDigit(s[i])
  {
    if |s| == 0 then 0
    else
      assert IsDigit(s[|s| - 1]);
      Value(s[..|s| - 1]) * 10 + (s[|s| - 1] as int - '0' as int)
  }

  /** Reading back the text of `n` gives `n`. */
  lemma {:induction false} ValueOfShow(n: nat)
    ensures Value(Show(n)) == n
    decreases n
  {
    if n >= 10 {
      var s := Show(n);
      assert s[..|s| - 1] == Show(n / 10);
      ValueOfShow(n / 10);
    }
  }

  /** Distinct numbers print as distinct texts. */
  lemma ShowInjective(a: nat, b: nat)
    ensures Show(a) == Show(b) ==> a == b
  {
    ValueOfShow(a);
    ValueOfShow(b);
  }
}

=== FILE: listing.dfy ===
/** The two relational steps both read queries share: `WHERE` (keep the rows
    a predicate accepts) and `ORDER BY created_at DESC`. SQL leaves the order
    of rows with equal `created_at` unspecified; the sort here fixes one such
    order, and its contract promises only what SQL promises. */
module Listing {
  import opened Schema

  /** Rows ordered by `created_at`, newest first. */
  ghost predicate NewestFirst(s: seq<Row>) {
    forall i, j :: 0 <= i < j < |s| ==> s[i].createdAt >= s[j].createdAt
  }

  /** The rows of `rows` that `keep` accepts, in their original order. */
  function Where(rows: seq<Row>, keep: Row -> bool): (r: seq<Row>)
    ensures forall x :: x in r <==> x in rows && keep(x)
    ensures forall x :: multiset(r)[x] == (if keep(x) then multiset(rows)[x] else 0)
    ensures |r| <= |rows|
  {
    if |rows| == 0 then []
    else
      assert rows == [rows[0]] + rows[1..];
      if keep(rows[0]) then [rows[0]] + Where(rows[1..], keep)
      else Where(rows[1..], keep)
  }

  /** `x` placed into the newest-first sequence `s` before the first row that
      is not newer than it. */
  function Place(x: Row, s: seq<Row>): (r: seq<Row>)
    requires NewestFirst(s)
    ensures NewestFirst(r)
    ensures multiset(r) == multiset(s) + multiset{x}
    ensures forall y :: y in r ==> y == x || y in s
  {
    if |s| == 0 then [x]
    else if x.createdAt >= s[0].createdAt then [x] + s
    else
      var tail := Place(x, s[1..]);
      assert s == [s[0]] + s[1..];
      PlaceBehind(x, s, tail);
      [s[0]] + tail
  }

  /** The step of `Place` that keeps `s[0]` in front of a sorted tail. */
  lemma PlaceBehind(x: Row, s: seq<Row>, tail: seq<Row>)
    requires NewestFirst(s) && |s| > 0 && x.createdAt < s[0].createdAt
    requires NewestFirst(tail)
    requires forall y :: y in tail ==> y == x || y in s[1..]
    ensures NewestFirst([s[0]] + tail)
  {
    var r := [s[0]] + tail;
    forall i, j | 0 <= i < j < |r| ensures r[i].createdAt >= r[j].createdAt {
      assert r[j] == tail[j - 1];
      if i > 0 {
        assert r[i] == tail[i - 1];
      } else {
        assert r[j] in tail;
      }
    }
  }

  /** The rows of `s` ordered newest first (`ORDER BY created_at DESC`). */
  function NewestFirstOrder(s: seq<Row>): (r: seq<Row>)
    ensures NewestFirst(r)
    ensures multiset(r) == multiset(s)
  {
    if |s| == 0 then []
    else
      assert s == [s[0]] + s[1..];
      Place(s[0], NewestFirstOrder(s[1..]))
  }

  /** Every ordering SQL may return for `SELECT … WHERE keep … ORDER BY
      created_at DESC`: exactly the accepted rows, newest first. */
  ghost predicate IsQueryResult(rows: seq<Row>, keep: Row -> bool, r: seq<Row>) {
    && NewestFirst(r)
    && forall x :: multiset(r)[x] == (if keep(x) then multiset(rows)[x] else 0)
  }

  /** The query, with ties in one fixed order. */
  function Query(rows: seq<Row>, keep: Row -> bool): (r: seq<Row>)
    ensures IsQueryResult(rows, keep, r)
  {
    NewestFirstOrder(Where(rows, keep))
  }

  /** Any two results of the same query hold the same rows and agree on the
      `created_at` at every position: they differ only among ties. */
  lemma QueryResultsAgree(rows: seq<Row>, keep: Row -> bool, a: seq<Row>, b: seq<Row>)
    requires IsQueryResult(rows, keep, a)
    requires IsQueryResult(rows, keep, b)
    ensures multiset(a) == multiset(b)
    ensures |a| == |b|
    ensures forall i :: 0 <= i < |a| ==> a[i].createdAt == b[i].createdAt
  {
    assert multiset(a) == multiset(b);
    assert |a| == |multiset(a)| == |multiset(b)| == |b|;
    SameTimesAt(a, b);
  }

  /** Two newest-first orderings of one multiset have the same `created_at`
      at every position. */
  lemma {:induction false} SameTimesAt(a: seq<Row>, b: seq<Row>)
    requires NewestFirst(a) && NewestFirst(b)
    requires multiset(a) == multiset(b)
    ensures |a| == |b|
    ensures forall i :: 0 <= i < |a| ==> a[i].createdAt == b[i].createdAt
    decreases |a|
  {
    assert |a| == |multiset(a)| == |multiset(b)| == |b|;
    if |a| > 0 {
      assert a[0] in multiset(b);
      assert a[0] in b;
      var ia :| 0 <= ia < |b| && b[ia] == a[0];
      var b' := DropAt(b, ia);
      assert a == [a[0]] + a[1..];
      assert multiset(a) == multiset{a[0]} + multiset(a[1..]);
      assert multiset(a[1..]) == multiset(b');
      assert NewestFirst(a[1..]) by {
        forall i, j | 0 <= i < j < |a[1..]| ensures a[1..][i].createdAt >= a[1..][j].createdAt {
          assert a[1..][i] == a[i + 1] && a[1..][j] == a[j + 1];
        }
      }
      SameTimesAt(a[1..], b');
      TimesAfterDrop(a, b, ia, b');
    }
  }

  /** `s` without its element at position `k`, still newest first. */
  function DropAt(s: seq<Row>, k: nat): (r: seq<Row>)
    requires k < |s|
    requires NewestFirst(s)
    ensures NewestFirst(r)
    ensures |r| == |s| - 1
    ensures multiset(r) == multiset(s) - multiset{s[k]}
    ensures forall i :: 0 <= i < k ==> r[i] == s[i]
    ensures forall i :: k <= i < |r| ==> r[i] == s[i + 1]
  {
    var r := s[..k] + s[k + 1..];
    assert forall i :: 0 <= i < k ==> r[i] == s[i];
    assert forall i :: k <= i < |r| ==> r[i] == s[i + 1];
    assert NewestFirst(r) by {
      forall i, j | 0 <= i < j < |r| ensures r[i].createdAt >= r[j].createdAt {
        var i0 := if i < k then i else i + 1;
        var j0 := if j < k then j else j + 1;
        assert r[i] == s[i0] && r[j] == s[j0];
      }
    }
    assert s == s[..k] + [s[k]] + s[k + 1..];
    assert multiset(s) == multiset(s[..k]) + multiset{s[k]} + multiset(s[k + 1..]);
    r
  }

  /** The inductive step of `SameTimesAt`: `b` holds `a[0]` at `ia`, and the
      rest of `a` matches `b` with that element dropped. */
  lemma TimesAfterDrop(a: seq<Row>, b: seq<Row>, ia: nat, b': seq<Row>)
    requires NewestFirst(a) && NewestFirst(b)
    requires multiset(a) == multiset(b)
    requires |a| == |b| && ia < |b| && b[ia] == a[0]
    requires b' == DropAt(b, ia)
    requires |a[1..]| == |b'|
    requires forall i :: 0 <= i < |b'| ==> a[1..][i].createdAt == b'[i].createdAt
    ensures forall i :: 0 <= i < |a| ==> a[i].createdAt == b[i].createdAt
  {
  }
}

=== FILE: resolver.dfy ===
/** The rule that picks the single announcement a storefront shows: among
    the shop's rows that are switched on and whose window contains `now`
    (inclusive at both ends), the one created last. */
module Resolver {
  import opened Wrappers
  import opened Schema
  import Listing

  /** The per-row part of the active query's WHERE clause:
      `is_active = 1 AND start_date <= now AND end_date >= now`. */
  predicate Live(r: Row, now: Timestamp) {
    r.isActive == Some(true) && r.startDate <= now && now <= r.endDate
  }

  /** The whole WHERE clause, shop filter included. */
  predicate Qualifies(r: Row, shop: string, now: Timestamp) {
    r.shopDomain == shop && Live(r, now)
  }

  /** What `SELECT … ORDER BY created_at DESC LIMIT 1` may return: nothing
      exactly when no row qualifies, and otherwise a qualifying row of the
      table that no qualifying row is newer than. Among rows tied on
      `created_at` any one is a correct answer. */
  ghost predicate IsPick(rows: seq<Row>, shop: string, now: Timestamp, r: Option<Row>) {
    && (r.None? <==> forall x :: x in rows ==> !Qualifies(x, shop, now))
    && (r.Some? ==>
          && r.value in rows
          && Qualifies(r.value, shop, now)
          && forall x :: x in rows && Qualifies(x, shop, now) ==> x.createdAt <= r.value.createdAt)
  }

  /** The active announcement of `shop` at `now`: filter, order newest
      first, take the first row. */
  function FindActive(t: Table, shop: string, now: Timestamp): (r: Option<Row>)
    ensures IsPick(t.rows, shop, now, r)
  {
    var hits := Listing.Query(t.rows, (x: Row) => Qualifies(x, shop, now));
    if |hits| == 0 then
      assert forall x :: x in t.rows ==> !Qualifies(x, shop, now) by {
        forall x | x in t.rows ensures !Qualifies(x, shop, now) {
          assert multiset(hits)[x] == 0;
        }
      }
      None
    else
      assert hits[0] in multiset(hits);
      assert forall x :: x in t.rows && Qualifies(x, shop, now) ==> x.createdAt <= hits[0].createdAt by {
        forall x | x in t.rows && Qualifies(x, shop, now)
          ensures x.createdAt <= hits[0].createdAt
        {
          assert x in multiset(hits);
          var k :| 0 <= k < |hits| && hits[k] == x;
          assert k == 0 || hits[0].createdAt >= hits[k].createdAt;
        }
      }
      Some(hits[0])
  }

  /** Correct answers are interchangeable up to ties: two of them are both
      nothing, or rows with the same `created_at`. */
  lemma PicksAgree(rows: seq<Row>, shop: string, now: Timestamp, a: Option<Row>, b: Option<Row>)
    requires IsPick(rows, shop, now, a)
    requires IsPick(rows, shop, now, b)
    ensures a.None? <==> b.None?
    ensures a.Some? && b.Some? ==> a.value.createdAt == b.value.createdAt
  {
  }

  /** Of two live rows of one shop, the strictly older one is never served. */
  lemma NewerWins(t: Table, shop: string, now: Timestamp, older: Row, newer: Row)
    requires older in t.rows && newer in t.rows
    requires Qualifies(older, shop, now) && Qualifies(newer, shop, now)
    requires older.createdAt < newer.createdAt
    ensures FindActive(t, shop, now) != Some(older)
    ensures FindActive(t, shop, now).Some?
  {
  }
}

=== FILE: schema.dfy ===
/** The `announcements` table of the server's SQLite database: one row type,
    the writable fields a request body may carry, and the table itself with
    its AUTOINCREMENT high-water mark. Timestamps are abstracted as integers.
    SQL compares the stored dates as text, so the abstraction is sound only
    while every stored date uses one uniform UTC ISO format, whose text
    order is the instant order. */
module Schema {
  import opened Wrappers

  type Timestamp = int

  /** One stored announcement. Columns declared NOT NULL are plain values;
      nullable columns are `Option`s (`None` is SQL `NULL`). `isActive` is
      `Some(true)` for 1, `Some(false)` for 0. */
  datatype Row = Row(
    id: nat,
    title: string,
    message: string,
    startDate: Timestamp,
    endDate: Timestamp,
    isActive: Option<bool>,
    backgroundColor: Option<string>,
    textColor: Option<string>,
    linkUrl: Option<string>,
    shopDomain: string,
    createdAt: Timestamp,
    updatedAt: Timestamp)

  /** The announcement fields of a JSON request body; a missing key or a
      JSON `null` is `None`. `id` is an id the body itself may carry: it is
      never written, but it is echoed back in responses. */
  datatype Fields = Fields(
    id: Option<int>,
    title: Option<string>,
    message: Option<string>,
    startDate: Option<Timestamp>,
    endDate: Option<Timestamp>,
    isActive: Option<bool>,
    backgroundColor: Option<string>,
    textColor: Option<string>,
    linkUrl: Option<string>,
    shopDomain: Option<string>)

  /** `CURRENT_TIMESTAMP` keeps whole seconds: the instant (in
      milliseconds) truncated down to the start of its second. */
  function WholeSecond(now: Timestamp): (s: Timestamp)
    ensures s <= now < s + 1000
    ensures s % 1000 == 0
  {
    now - now % 1000
  }

  /** The table contents (in no particular order) and the largest id ever
      handed out, which SQLite keeps in `sqlite_sequence` for an
      AUTOINCREMENT key. */
  datatype Table = Table(rows: seq<Row>, lastId: nat)

  /** What the storage engine guarantees about the table: ids are unique,
      positive and never above the high-water mark. */
  ghost predicate Valid(t: Table) {
    && (forall i :: 0 <= i < |t.rows| ==> 0 < t.rows[i].id <= t.lastId)
    && DistinctIds(t.rows)
  }

  /** No two rows share an id (the PRIMARY KEY constraint). */
  ghost predicate DistinctIds(rows: seq<Row>) {
    forall i, j :: 0 <= i < j < |rows| ==> rows[i].id != rows[j].id
  }

  /** The empty table a fresh database starts with. */
  function Empty(): (t: Table)
    ensures Valid(t)
    ensures |t.rows| == 0
  {
    Table([], 0)
  }

  /** Whether some row carries `id`. */
  predicate HasId(rows: seq<Row>, id: int) {
    exists i :: 0 <= i < |rows| && rows[i].id == id
  }

  /** A store error: a NOT NULL constraint violation names its column. */
  datatype DbError = NotNull(column: string)

  /** The text the driver puts in the rejected error's `message`. */
  function ErrorMessage(e: DbError): string {
    "SQLITE_CONSTRAINT: NOT NULL constraint failed: announcements." + e.column
  }

  /** The first NOT NULL column, in declaration order, that `f` leaves
      NULL; `shop_domain` is checked only when the statement writes it. */
  function NullColumn(f: Fields, writesShop: bool): (c: Option<string>)
    ensures c.None? <==>
      (&& f.title.Some? && f.message.Some? && f.startDate.Some? && f.endDate.Some?
       && (writesShop ==> f.shopDomain.Some?))
    ensures c == Some("title") <==> f.title.None?
    ensures c == Some("message") <==> f.title.Some? && f.message.None?
    ensures c == Some("start_date") <==>
      f.title.Some? && f.message.Some? && f.startDate.None?
    ensures c == Some("end_date") <==>
      f.title.Some? && f.message.Some? && f.startDate.Some? && f.endDate.None?
    ensures c == Some("shop_domain") <==>
      && f.title.Some? && f.message.Some? && f.startDate.Some? && f.endDate.Some?
      && writesShop && f.shopDomain.None?
  {
    if f.title.None? then Some("title")
    else if f.message.None? then Some("message")
    else if f.startDate.None? then Some("start_date")
    else if f.endDate.None? then Some("end_date")
    else if writesShop && f.shopDomain.None? then Some("shop_domain")
    else None
  }
}

=== FILE: store.dfy ===
/** The database operations the server calls (`dbOperations`), each a pure
    transformer of the table. `now` is the server clock in milliseconds;
    the columns SQLite fills from `CURRENT_TIMESTAMP` hold it truncated to
    whole seconds. */
module Store {
  import opened Wrappers
  import opened Schema
  import Listing

  /** What a successful write resolves with: the new table and the object
      echoed to the caller, `{ id, ...body }`. */
  datatype Written = Written(table: Table, echo: Echo)

  /** The echoed object: the body's fields under an id. The spread comes
      after `id`, so an `id` in the body itself wins. */
  datatype Echo = Echo(id: int, fields: Fields)

  /** What the reset resolves with: the emptied table and `changes`. */
  datatype Cleared = Cleared(table: Table, changes: nat)

  // ---------------------------------------------------------------- reads

  /** `getAllAnnouncements`: the shop's rows, newest first. */
  function List(t: Table, shop: string): (r: seq<Row>)
    ensures Listing.NewestFirst(r)
    ensures forall x :: multiset(r)[x] == (if x.shopDomain == shop then multiset(t.rows)[x] else 0)
    ensures forall x :: x in r <==> x in t.rows && x.shopDomain == shop
  {
    var r := Listing.Query(t.rows, (x: Row) => x.shopDomain == shop);
    assert forall x :: x in r <==> x in multiset(r);
    r
  }

  // --------------------------------------------------------------- create

  /** The largest id among `rows` (0 for none). */
  function MaxId(rows: seq<Row>): (m: nat)
    ensures forall i :: 0 <= i < |rows| ==> rows[i].id <= m
  {
    if |rows| == 0 then 0
    else
      var rest := MaxId(rows[1..]);
      assert forall i :: 1 <= i < |rows| ==> rows[i] == rows[1..][i - 1];
      if rows[0].id > rest then rows[0].id else rest
  }

  /** The id AUTOINCREMENT hands out next: one above both the high-water
      mark and every id present. */
  function NextId(t: Table): (id: nat)
    ensures id > t.lastId
    ensures forall i :: 0 <= i < |t.rows| ==> t.rows[i].id < id
  {
    var m := MaxId(t.rows);
    (if m > t.lastId then m else t.lastId) + 1
  }

  /** `n` holds exactly the values `f` supplies for the columns the INSERT
      lists. */
  ghost predicate Stores(n: Row, f: Fields) {
    && Some(n.title) == f.title
    && Some(n.message) == f.message
    && Some(n.startDate) == f.startDate
    && Some(n.endDate) == f.endDate
    && n.backgroundColor == f.backgroundColor
    && n.textColor == f.textColor
    && n.linkUrl == f.linkUrl
    && Some(n.shopDomain) == f.shopDomain
  }

  /** `createAnnouncement`. The INSERT names eight columns and binds the
      body's values to them (a missing value binds NULL, so the colour
      defaults do not apply); `is_active` is not among them and takes its
      default 1 whatever the body says; both timestamps default to now, cut to
      whole seconds. A
      NULL in a NOT NULL column rejects the statement and leaves the table
      as it was. */
  function Create(t: Table, f: Fields, now: Timestamp): (r: Result<Written, DbError>)
    ensures r.Failure? <==> NullColumn(f, true).Some?
    ensures r.Failure? ==> r.error == NotNull(NullColumn(f, true).value)
    ensures r.Success? ==>
      var t' := r.value.table;
      && |t'.rows| == |t.rows| + 1
      && t'.rows[..|t.rows|] == t.rows
      && var n := t'.rows[|t.rows|];
      && n.id > t.lastId
      && (forall x :: x in t.rows ==> x.id < n.id)
      && t'.lastId == n.id
      && Stores(n, f)
      && n.isActive == Some(true)
      && n.createdAt == WholeSecond(now) && n.updatedAt == WholeSecond(now)
      && r.value.echo == Echo(f.id.GetOr(n.id), f)
    ensures r.Success? && Valid(t) ==> Valid(r.value.table)
  {
    match NullColumn(f, true)
    case Some(column) => Failure(NotNull(column))
    case None =>
      var id := NextId(t);
      var n := Row(id, f.title.value, f.message.value, f.startDate.value, f.endDate.value,
                   Some(true), f.backgroundColor, f.textColor, f.linkUrl, f.shopDomain.value,
                   WholeSecond(now), WholeSecond(now));
      var t' := Table(t.rows + [n], id);
      assert forall x :: x in t.rows ==> x.id < id;
      Success(Written(t', Echo(f.id.GetOr(id), f)))
  }

  // --------------------------------------------------------------- update

  /** `n` is `prev` after the UPDATE's SET list: the eight writable columns
      take the body's values, `updated_at` becomes now (in whole seconds),
      and `id`,
      `shop_domain` and `created_at` stay. */
  ghost predicate Overwritten(prev: Row, n: Row, f: Fields, now: Timestamp) {
    && n.id == prev.id && n.shopDomain == prev.shopDomain && n.createdAt == prev.createdAt
    && Some(n.title) == f.title && Some(n.message) == f.message
    && Some(n.startDate) == f.startDate && Some(n.endDate) == f.endDate
    && n.isActive == f.isActive
    && n.backgroundColor == f.backgroundColor && n.textColor == f.textColor
    && n.linkUrl == f.linkUrl
    && n.updatedAt == WholeSecond(now)
  }

  function Overwrite(prev: Row, f: Fields, now: Timestamp): (n: Row)
    requires NullColumn(f, false).None?
    ensures Overwritten(prev, n, f, now)
  {
    prev.(title := f.title.value, message := f.message.value,
         startDate := f.startDate.value, endDate := f.endDate.value,
         isActive := f.isActive, backgroundColor := f.backgroundColor,
         textColor := f.textColor, linkUrl := f.linkUrl, updatedAt := WholeSecond(now))
  }

  /** The rows after `UPDATE … WHERE id = ?`. */
  function SetWhereId(rows: seq<Row>, id: int, f: Fields, now: Timestamp): (r: seq<Row>)
    requires !HasId(rows, id) || NullColumn(f, false).None?
    ensures |r| == |rows|
    ensures forall i :: 0 <= i < |rows| && rows[i].id != id ==> r[i] == rows[i]
    ensures forall i :: 0 <= i < |rows| && rows[i].id == id ==> Overwritten(rows[i], r[i], f, now)
  {
    seq(|rows|, i requires 0 <= i < |rows| =>
      if rows[i].id == id then Overwrite(rows[i], f, now) else rows[i])
  }

  /** `updateAnnouncement`. The NOT NULL check fires only on a row the
      statement actually changes, so an id that matches nothing succeeds
      silently whatever the body holds. */
  function Update(t: Table, id: int, f: Fields, now: Timestamp): (r: Result<Written, DbError>)
    ensures r.Failure? <==> HasId(t.rows, id) && NullColumn(f, false).Some?
    ensures r.Failure? ==> r.error == NotNull(NullColumn(f, false).value)
    ensures r.Success? ==>
      var t' := r.value.table;
      && t'.lastId == t.lastId
      && |t'.rows| == |t.rows|
      && (forall i :: 0 <= i < |t.rows| && t.rows[i].id != id ==> t'.rows[i] == t.rows[i])
      && (forall i :: 0 <= i < |t.rows| && t.rows[i].id == id ==> Overwritten(t.rows[i], t'.rows[i], f, now))
      && r.value.echo == Echo(f.id.GetOr(id), f)
    ensures !HasId(t.rows, id) ==> r.Success? && r.value.table == t
    ensures r.Success? && Valid(t) ==> Valid(r.value.table)
  {
    if HasId(t.rows, id) && NullColumn(f, false).Some? then
      Failure(NotNull(NullColumn(f, false).value))
    else
      var rows := SetWhereId(t.rows, id, f, now);
      assert !HasId(t.rows, id) ==> rows == t.rows;
      Success(Written(Table(rows, t.lastId), Echo(f.id.GetOr(id), f)))
  }

  /** Two tables that differ at most in `updated_at`. */
  ghost predicate SameButUpdatedAt(a: Table, b: Table) {
    && a.lastId == b.lastId
    && |a.rows| == |b.rows|
    && forall i :: 0 <= i < |a.rows| ==> a.rows[i].(updatedAt := 0) == b.rows[i].(updatedAt := 0)
  }

  /** Updates are idempotent: repeating an update that succeeded succeeds
      again and gives what a single update at the later time gives, which
      differs from the first result only in `updated_at`. */
  lemma UpdateIdempotent(t: Table, id: int, f: Fields, now1: Timestamp, now2: Timestamp)
    requires Update(t, id, f, now1).Success?
    ensures Update(Update(t, id, f, now1).value.table, id, f, now2) == Update(t, id, f, now2)
    ensures SameButUpdatedAt(Update(t, id, f, now1).value.table, Update(t, id, f, now2).value.table)
  {
    var t1 := Update(t, id, f, now1).value.table;
    var t2 := Update(t, id, f, now2).value.table;
    assert forall i :: 0 <= i < |t.rows| ==> t1.rows[i].id == t.rows[i].id;
    assert HasId(t1.rows, id) ==> HasId(t.rows, id);
    var t12 := Update(t1, id, f, now2).value.table;
    assert t12.rows == t2.rows;
  }

  // --------------------------------------------------------------- delete

  /** `deleteAnnouncement`: `DELETE … WHERE id = ?`. An absent id deletes
      nothing and is not an error. */
  function Delete(t: Table, id: int): (t': Table)
    ensures t'.lastId == t.lastId
    ensures forall x :: x in t'.rows <==> x in t.rows && x.id != id
    ensures !HasId(t.rows, id) ==> t' == t
    ensures Valid(t) ==> Valid(t')
    ensures Valid(t) && HasId(t.rows, id) ==> |t'.rows| == |t.rows| - 1
  {
    assert Valid(t) ==> DistinctIds(Without(t.rows, id)) by {
      if Valid(t) {
        WithoutKeepsDistinct(t.rows, id);
      }
    }
    Table(Without(t.rows, id), t.lastId)
  }

  /** `rows` without those whose id is `id`, order kept. */
  function Without(rows: seq<Row>, id: int): (r: seq<Row>)
    ensures forall x :: x in r <==> x in rows && x.id != id
    ensures !HasId(rows, id) ==> r == rows
    ensures |r| == |rows| - CountId(rows, id)
  {
    if |rows| == 0 then []
    else
      var rest := Without(rows[1..], id);
      assert rows == [rows[0]] + rows[1..];
      assert !HasId(rows, id) ==> !HasId(rows[1..], id);
      if rows[0].id == id then rest else [rows[0]] + rest
  }

  /** Deleting keeps the primary key unique. */
  lemma {:induction false} WithoutKeepsDistinct(rows: seq<Row>, id: int)
    requires DistinctIds(rows)
    ensures DistinctIds(Without(rows, id))
  {
    if |rows| > 0 {
      assert DistinctIds(rows[1..]);
      WithoutKeepsDistinct(rows[1..], id);
      if rows[0].id != id {
        var rest := Without(rows[1..], id);
        assert forall y :: y in rest ==> y.id != rows[0].id by {
          forall y | y in rest ensures y.id != rows[0].id {
            var j :| 0 <= j < |rows[1..]| && rows[1..][j] == y;
            assert rows[j + 1] == y;
          }
        }
        DistinctCons(rows[0], rest);
      }
    }
  }

  /** A row whose id none of `rest` carries extends a unique `rest`. */
  lemma DistinctCons(x: Row, rest: seq<Row>)
    requires DistinctIds(rest)
    requires forall y :: y in rest ==> y.id != x.id
    ensures DistinctIds([x] + rest)
  {
    var r := [x] + rest;
    forall i, j | 0 <= i < j < |r| ensures r[i].id != r[j].id {
      assert r[j] == rest[j - 1];
      if i > 0 {
        assert r[i] == rest[i - 1];
      } else {
        assert r[j] in rest;
      }
    }
  }

  /** How many rows carry `id`. */
  function CountId(rows: seq<Row>, id: int): (n: nat)
    ensures n <= |rows|
    ensures n == 0 <==> !HasId(rows, id)
    ensures DistinctIds(rows) ==> n <= 1
  {
    if |rows| == 0 then 0
    else
      assert forall j :: 1 <= j < |rows| ==> rows[j] == rows[1..][j - 1];
      assert DistinctIds(rows) && rows[0].id == id ==> !HasId(rows[1..], id);
      (if rows[0].id == id then 1 else 0) + CountId(rows[1..], id)
  }

  // ---------------------------------------------------------------- reset

  /** `deleteAllAnnouncements`: `DELETE FROM announcements` with no WHERE,
      so rows of every shop go; `changes` counts them. The AUTOINCREMENT
      high-water mark survives. */
  function DeleteAll(t: Table): (c: Cleared)
    ensures c.table.rows == [] && c.table.lastId == t.lastId
    ensures c.changes == |t.rows|
  {
    Cleared(Table([], t.lastId), |t.rows|)
  }

  // --------------------------------------------------------------- lemmas

  /** Creating then listing the row's shop returns the new row, carrying
      every client-supplied field, a fresh id and both timestamps. */
  lemma CreateThenList(t: Table, f: Fields, now: Timestamp)
    requires Create(t, f, now).Success?
    ensures var t' := Create(t, f, now).value.table;
      exists n :: n in List(t', f.shopDomain.value) && Stores(n, f)
        && n.id == NextId(t) && n.createdAt == WholeSecond(now) && n.updatedAt == WholeSecond(now)
  {
  }

  /** Ids are never reused: after a reset, the next row created gets an id
      above every id the table held before. */
  lemma ResetKeepsIdsFresh(t: Table, f: Fields, now: Timestamp)
    requires Valid(t)
    requires Create(DeleteAll(t).table, f, now).Success?
    ensures var t' := Create(DeleteAll(t).table, f, now).value.table;
      forall x :: x in t.rows ==> x.id < t'.rows[0].id
  {
  }

  /** Two creates within one second tie on `created_at`, so the active
      query is free to serve either of them. */
  lemma SameSecondCreatesTie(t: Table, f: Fields, g: Fields, now1: Timestamp, now2: Timestamp)
    requires Create(t, f, now1).Success?
    requires Create(Create(t, f, now1).value.table, g, now2).Success?
    requires WholeSecond(now1) == WholeSecond(now2)
    ensures var t1 := Create(t, f, now1).value.table;
      var t2 := Create(t1, g, now2).value.table;
      && t2.rows[|t.rows|].createdAt == t2.rows[|t.rows| + 1].createdAt
      && t2.rows[|t.rows|].id < t2.rows[|t.rows| + 1].id
  {
  }
}

=== FILE: widget.dfy ===
/** The storefront script's decisions: which API it calls for which shop,
    whether the response carries an announcement, whether a bar is drawn
    and how, and what dismissing it stores. `localStorage` is a map from
    keys to values; drawing into the page is not modelled. */
module Widget {
  import opened Wrappers
  import opened Schema
  import Decimal
  import Api

  const AppUrl: string := "https://shopify-portfolio.onrender.com"
  const LocalAppUrl: string := "http://localhost:3000"

  /** `API_BASE`: the local server when the page itself is on localhost. */
  function ApiBase(hostname: string): (base: string)
    ensures base == LocalAppUrl <==> hostname == "localhost"
    ensures base == AppUrl <==> hostname != "localhost"
  {
    if hostname == "localhost" then LocalAppUrl else AppUrl
  }

  /** The URL fetched: the active route, with the page's hostname as the
      `shop` query parameter. */
  function ActiveUrl(hostname: string): (url: string)
    ensures ApiBase(hostname) <= url
    ensures url[|ApiBase(hostname)|..] == "/api/announcements/active?shop=" + hostname
  {
    var base := ApiBase(hostname);
    var route := "/api/announcements/active?shop=" + hostname;
    assert (base + route)[|base|..] == route;
    base + route
  }

  /** The request the server sees for that URL: only the `shop` parameter,
      no shop header. */
  function ActiveRequest(hostname: string, headers: map<string, string>, body: Fields): (req: Api.Request)
    ensures req.query == map["shop" := hostname]
  {
    Api.Request(map["shop" := hostname], headers, body)
  }

  /** The storefront's announcements are the hostname's: the server resolves
      the shop to the hostname whenever it is not empty. */
  lemma ShopIsHostname(hostname: string, headers: map<string, string>, body: Fields)
    requires hostname != ""
    ensures Api.ShopDomain(ActiveRequest(hostname, headers, body)) == hostname
  {
  }

  /** The guard `data.success && data.data`: the announcement to display, if
      any. The active route's `data` is one row or absent. */
  function Announcement(env: Api.Envelope): (a: Option<Row>)
    ensures a.Some? <==> env.success && env.data.Some? && env.data.value.Active? && env.data.value.row.Some?
    ensures a.Some? ==> env.data == Some(Api.Active(a))
  {
    if env.success && env.data.Some? && env.data.value.Active? then env.data.value.row else None
  }

  /** The storage key that records a dismissal of announcement `id`. */
  function DismissKey(id: nat): (key: string)
    ensures "announcement-dismissed-" <= key
    ensures key[|"announcement-dismissed-"|..] == Decimal.Show(id)
  {
    "announcement-dismissed-" + Decimal.Show(id)
  }

  /** Different announcements have different keys. */
  lemma DismissKeyInjective(a: nat, b: nat)
    ensures DismissKey(a) == DismissKey(b) ==> a == b
  {
    if DismissKey(a) == DismissKey(b) {
      Decimal.ShowInjective(a, b);
    }
  }

  /** `localStorage.getItem(key)` is truthy: present and not empty. */
  predicate Dismissed(storage: map<string, string>, id: nat) {
    DismissKey(id) in storage && storage[DismissKey(id)] != ""
  }

  /** The bar's content: a link or plain text, showing the message. */
  datatype Content = Link(href: string, text: string) | Plain(text: string)

  /** The bar drawn: its background and text colours and its content. */
  datatype Bar = Bar(background: string, color: string, content: Content)

  /** `value || fallback` for a nullable text. */
  function OrDefault(value: Option<string>, fallback: string): (r: string)
    ensures value.Some? && value.value != "" ==> r == value.value
    ensures value.None? || value.value == "" ==> r == fallback
  {
    match value
    case Some(v) => if v != "" then v else fallback
    case None => fallback
  }

  /** `displayAnnouncement`: nothing without a container or once dismissed;
      otherwise a bar in the row's colours (black on white by default) whose
      content is a link exactly when the row has a non-empty link. */
  function Display(hasContainer: bool, storage: map<string, string>, a: Row): (bar: Option<Bar>)
    ensures bar.Some? <==> hasContainer && !Dismissed(storage, a.id)
    ensures bar.Some? ==>
      && bar.value.background == OrDefault(a.backgroundColor, "#000000")
      && bar.value.color == OrDefault(a.textColor, "#ffffff")
      && bar.value.content.text == a.message
      && (bar.value.content.Link? <==> a.linkUrl.Some? && a.linkUrl.value != "")
      && (bar.value.content.Link? ==> bar.value.content.href == a.linkUrl.value)
  {
    if !hasContainer || Dismissed(storage, a.id) then None
    else
      var content := if a.linkUrl.Some? && a.linkUrl.value != "" then Link(a.linkUrl.value, a.message)
                     else Plain(a.message);
      Some(Bar(OrDefault(a.backgroundColor, "#000000"), OrDefault(a.textColor, "#ffffff"), content))
  }

  /** The close button: stores `"true"` under the announcement's key. */
  function Dismiss(storage: map<string, string>, id: nat): (s: map<string, string>)
    ensures Dismissed(s, id)
    ensures s.Keys == storage.Keys + {DismissKey(id)}
    ensures forall k :: k in storage && k != DismissKey(id) ==> s[k] == storage[k]
  {
    storage[DismissKey(id) := "true"]
  }

  /** After dismissing, the same announcement is never drawn again, and
      any other announcement is drawn exactly as before. */
  lemma DismissSuppressesOnlyThatId(hasContainer: bool, storage: map<string, string>, a: Row, b: Row)
    ensures Display(hasContainer, Dismiss(storage, a.id), a).None?
    ensures b.id != a.id ==> Display(hasContainer, Dismiss(storage, a.id), b) == Display(hasContainer, storage, b)
  {
    if b.id != a.id {
      DismissKeyInjective(a.id, b.id);
      assert Dismissed(Dismiss(storage, a.id), b.id) == Dismissed(storage, b.id);
    }
  }

  /** One page load: fetch, guard, display. */
  function Load(env: Api.Envelope, hasContainer: bool, storage: map<string, string>): (bar: Option<Bar>)
    ensures bar.Some? <==>
      hasContainer && Announcement(env).Some? && !Dismissed(storage, Announcement(env).value.id)
    ensures bar.Some? ==> bar == Display(hasContainer, storage, Announcement(env).value)
    ensures bar.Some? ==> bar.value.content.text == Announcement(env).value.message
  {
    match Announcement(env)
    case None => None
    case Some(a) => Display(hasContainer, storage, a)
  }

  /** End to end: a storefront page shows a bar exactly when the server's
      resolver finds an announcement for the hostname that this browser has
      not dismissed, and the bar shows that announcement's message. */
  lemma StorefrontShowsResolved(t: Table, hostname: string, headers: map<string, string>,
                                body: Fields, now: Timestamp, storage: map<string, string>)
    requires hostname != ""
    ensures var served := Api.GetActive(t, ActiveRequest(hostname, headers, body), now, None);
      var bar := Load(served.body, true, storage);
      var pick := served.body.data.value.row;
      && (bar.Some? <==> pick.Some? && !Dismissed(storage, pick.value.id))
      && (bar.Some? ==> bar.value.content.text == pick.value.message
                        && pick.value.shopDomain == hostname)
  {
  }

  /** A failed fetch draws nothing. */
  lemma ServerErrorShowsNothing(t: Table, req: Api.Request, now: Timestamp, error: string,
                                hasContainer: bool, storage: map<string, string>)
    ensures Load(Api.GetActive(t, req, now, Some(error)).body, hasContainer, storage).None?
  {
  }
}

=== FILE: wrappers.dfy ===
/** Failure-compatible wrappers used throughout the model: an optional value
    (a JavaScript `null`/`undefined` or a SQL `NULL`) and a result that is
    either a value or an error (a rejected promise). */
module Wrappers {

  datatype Option<+T> = None | Some(value: T) {

    /** The wrapped value, or `default` when there is none. */
    function GetOr(default: T): T {
      match this
      case Some(v) => v
      case None => default
    }
  }

  datatype Result<+T, +E> = Success(value: T) | Failure(error: E)
}
